=== FILE: README.md ===
# Session and request logic of the IoT billing admin dashboard

This project is a Dafny model of the small amount of real logic in the billing-system admin
dashboard. The rest of that front end is markup.

- **Authenticated request wrapper** (`AuthMiddleware`). It attaches the stored bearer token to
  a request. On a 401 it refreshes the token once. It then either retries once with the new
  token, or clears both tokens, redirects to `/login` and throws "Authentication failed".
  Browser storage is a `map<string, string>`. The network is an oracle with one outcome for
  each request the wrapper may send. Every call returns four things: its reply, the new
  storage, the redirect target and the list of requests issued.
- **Fetch hook** (`AuthenticatedFetchHook`). It passes the wrapper's outcome through
  unchanged. On the "Authentication failed" message it also signs the session context out.
- **Session context** (`AuthContext`). It covers the simulated `login`, `logout` and the
  partial-record merge `updateUser`.
- **Route guards** (`RouteGuards`). Each guard makes a three-way decision: spinner, replacing
  navigation, or render the children. The guards read `isLoading` and `accessToken` from the
  context, but the context does not provide them, so the model takes both as explicit inputs.
  `ContextWithoutTokenLocksOut` shows the consequence of the context as written: with both
  fields undefined, the protected guard always redirects to `/login`, and the public guard
  always renders.
- **User table** (`UserPage`):
  - the bounded retry with capped exponential backoff;
  - the block/unblock handler and its list update;
  - the prioritised translation of error messages.
- **Income ledger** (`IncomeHistory`). The page total is a left fold over the prices.

A few behaviours of the code are easy to miss, and the model keeps them as written:

- The context's `login(email)` only builds a fixed profile. It calls no endpoint and stores
  no tokens. The password the login page passes is ignored.
- The code has no startup hydration and no stored `user` key. The context starts with the
  default profile, whatever storage holds.
- After a failed refresh the wrapper removes only the two token keys. The context user is
  cleared only by the hook.
- Concurrent refreshes are not merged into one: each call refreshes on its own.
- A stored empty-string token counts as "no token", because the code tests truthiness.
- The refresh token is rotated only when the response carries a non-empty one.
- A refresh counts as a success on any 2xx JSON answer whose `data` field is neither null nor
  undefined, so that reading `data.accessToken` does not throw. `data` need not be an object.
  When `accessToken` is missing, as it is when `data` is a string or a number, the string
  "undefined" is stored.
- In the user table, a PATCH answer whose JSON body is `null` counts as a failure. On a 2xx
  answer, reading `.data` throws a TypeError, which is shown as the error. On any other answer,
  the `HTTP <status>` text is kept. The model decodes such a body as `NotJson`, carrying that
  TypeError's message.

## Model

| member | source | states |
|---|---|---|
| `AuthMiddleware.GetItem` | src/lib/authMiddleware.ts:10-16 | reading a key gives its stored value, or null exactly when the key is absent |
| `AuthMiddleware.OutgoingHeaders` | src/lib/authMiddleware.ts:26-30 | the first request carries JSON content type and `Bearer <token>` by default; every caller-supplied header overrides them; no other header appears |
| `AuthMiddleware.AuthenticatedFetch` | src/lib/authMiddleware.ts:19-63 | without a non-empty token it throws "No access token available" and sends nothing; the first request uses the caller's url, method and body with the merged headers; a transport error or any status other than 401 is surfaced unchanged, with storage untouched and no refresh; at most three requests, with a refresh request only in second place; a redirect happens exactly when it throws "Authentication failed", and then neither token key is left in storage |
| `AuthMiddleware.RefreshAccessToken` | src/lib/authMiddleware.ts:66-95 | no refresh token means no request and failure; otherwise exactly one POST of that token; success happens exactly on a 2xx JSON answer whose `data` is neither null nor undefined (`Grant`), even one without `accessToken`, which stores "undefined"; failure leaves storage as it was; success stores the new access token and rotates the refresh token only to a non-empty supplied one; no other key changes |
| `AuthMiddleware.RedirectToLogin` | src/lib/authMiddleware.ts:98-102 | both token keys are absent afterwards, the remaining keys are exactly the other keys, each with its old value, and the target is `/login` |
| `AuthMiddleware.IsAuthenticated` | src/lib/authMiddleware.ts:105-107 | true exactly when a non-empty access token is stored |
| `AuthMiddleware.Logout` | src/lib/authMiddleware.ts:110-114 | both token keys are absent afterwards, the other keys remain, and the target is `/login` |
| `AuthMiddleware.NoAccessTokenIffUnauthenticated` | src/lib/authMiddleware.ts:20-24 | the call fails with "No access token available" if and only if `isAuthenticated` is false, and then it issues zero requests |
| `AuthMiddleware.RefreshedCallRetriesOnce` | src/lib/authMiddleware.ts:41-50 | after a 401 and a successful refresh there are exactly three requests; the retry has the original url, method, body and header names, with `Authorization` rebuilt from the newly stored token even over a caller value; the retry's outcome is final, a second 401 included |
| `AuthMiddleware.FailedRefreshSignsOut` | src/lib/authMiddleware.ts:51-55 | after a 401 and a failed refresh it throws "Authentication failed"; both tokens are removed as by `logout`; the redirect is `/login`; there is no retry |
| `AuthMiddleware.OnlyTokensChange` | src/lib/authMiddleware.ts:19-63 | no storage key other than the two token keys is ever added, removed or changed by a call |
| `AuthMiddleware.RotationOnlyWhenSupplied` | src/lib/authMiddleware.ts:82-88 | the stored refresh token changes only on a successful refresh that supplied a non-empty token, and then it becomes that token |
| `AuthMiddleware.LogoutIdempotent` | src/lib/authMiddleware.ts:110-114 | logging out twice gives the same storage and redirect as logging out once; afterwards `isAuthenticated` is false |
| `AuthMiddleware.RefreshWithoutRotation` | src/lib/authMiddleware.ts:82-88 | a refresh answered with only `accessToken: "A2"` stores "A2" and leaves the refresh token "R1" unchanged |
| `AuthMiddleware.ExpiredThenRecovered` | src/lib/authMiddleware.ts:38-50 | the sequence 401, successful refresh, then 200 gives two target requests and one refresh request; the reply is the retry's response, sent with "Bearer A2" |
| `AuthenticatedFetchHook.AuthenticatedFetch` | src/hooks/useAuthenticatedFetch.ts:15-25 | the wrapper's step is passed through unchanged; the context user is cleared when the thrown message is "Authentication failed"; in every other case the session is untouched |
| `AuthenticatedFetchHook.IsAuthenticated` | src/hooks/useAuthenticatedFetch.ts:31-36 | equals the wrapper's `isAuthenticated`, i.e. a non-empty stored access token |
| `AuthenticatedFetchHook.LogoutOnlyOnAuthenticationFailure` | src/hooks/useAuthenticatedFetch.ts:18-23 | a signed-in session is signed out if and only if the error is the authentication failure, or a transport error with that same message; a missing token never signs out |
| `AuthenticatedFetchHook.FailedRefreshSignsOutEverywhere` | src/hooks/useAuthenticatedFetch.ts:18-23 | after a failed refresh through the hook, no context user and no tokens remain, and the page is sent to `/login` |
| `AuthContext.Initial` | src/contexts/AuthContext.tsx:36-42 | the provider starts signed in as the default profile: id "1", name "Joe Natania", e-mail "joenatania@gmail.com", the placeholder avatar, online |
| `AuthContext.Login` | src/contexts/AuthContext.tsx:44-53 | login sets a user with the given e-mail and the fixed id "1", name, avatar and status online |
| `AuthContext.Logout` | src/contexts/AuthContext.tsx:55-57 | logout leaves no user |
| `AuthContext.Apply` | src/contexts/AuthContext.tsx:61 | the merged user agrees with the partial record on every field it carries and with the old user on all others; the merge is the identity exactly when the record already agrees with the user |
| `AuthContext.UpdateUser` | src/contexts/AuthContext.tsx:59-63 | without a user, nothing changes; with a user, the user becomes the merge of the old user and the partial record |
| `AuthContext.UpdateWithEmptyPatch` | src/contexts/AuthContext.tsx:61 | updating with an empty partial record is the identity |
| `AuthContext.UpdateTwice` | src/contexts/AuthContext.tsx:61 | two successive updates equal one update with the merged record, the later fields winning |
| `AuthContext.UpdateChangesOnlyCarriedFields` | src/contexts/AuthContext.tsx:59-63 | exactly the fields present in the partial record are replaced; all others are unchanged |
| `AuthContext.LogoutIdempotent` | src/contexts/AuthContext.tsx:55-63 | logout twice equals logout once; after logout no update restores a user |
| `AuthContext.LoginOverwrites` | src/contexts/AuthContext.tsx:44-53 | the session after login does not depend on the session before it |
| `AuthContext.InitialIsDefaultLogin` | src/contexts/AuthContext.tsx:36-53 | the starting session equals the session that logging in with the default e-mail gives, from any prior state |
| `RouteGuards.ProtectedRoute` | src/components/ProtectedRoute.tsx:10-29 | a spinner while loading, whatever the tokens; otherwise the children exactly when signed in, else a replacing navigation to `/login` |
| `RouteGuards.PublicRoute` | src/components/PublicRoute.tsx:10-29 | a spinner while loading; otherwise the children exactly when not signed in, else a replacing navigation to `/` |
| `RouteGuards.SignedInNeedsAllThree` | src/components/ProtectedRoute.tsx:21 | signed in means three conditions together: a non-empty stored token, a user, and a non-empty context token |
| `RouteGuards.GuardsAreComplementary` | src/components/PublicRoute.tsx:21-28 | when not loading, exactly one of the two guards renders its children and the other navigates |
| `RouteGuards.LoadingDecidesNothing` | src/components/ProtectedRoute.tsx:14-18 | while loading, both guards show the spinner |
| `RouteGuards.ContextWithoutTokenLocksOut` | src/components/ProtectedRoute.tsx:11-26 | when `isLoading` and `accessToken` are undefined, the protected guard always redirects to `/login` and the public guard always renders |
| `RouteGuards.LoggedOutIsRedirected` | src/components/ProtectedRoute.tsx:21-26 | after the context's logout the protected guard redirects, whatever the tokens |
| `UserPage.BackoffDelay` | src/pages/UserPage.tsx:335 | the wait after a failed attempt is between 1000 and 5000 ms |
| `UserPage.BackoffMonotone` | src/pages/UserPage.tsx:335 | the wait never shrinks from one attempt to the next |
| `UserPage.BackoffSchedule` | src/pages/UserPage.tsx:335 | the waits are 1000, 2000 and 4000 ms, then 5000 ms from attempt 3 on |
| `UserPage.WithTimeout` | src/pages/UserPage.tsx:304-322 | an aborted attempt becomes the "Request timeout" error; responses and other errors pass through unchanged |
| `UserPage.FetchWithRetry` | src/pages/UserPage.tsx:324-339 | makes at most `retries` attempts and returns the first response with the backoff waits before it; if all attempts throw, the last error is rethrown; with no budget the result is undefined |
| `UserPage.RetryFromMeetsSpec` | src/pages/UserPage.tsx:324-338 | the one-attempt-at-a-time definition satisfies the same first-response / last-error relation |
| `UserPage.RetrySpecDeterministic` | src/pages/UserPage.tsx:324-338 | at most one result satisfies the retry relation for a given oracle |
| `UserPage.RetryAgreesWithLoop` | src/pages/UserPage.tsx:324-338 | the loop's result equals the recursive definition's, and uses at most `retries` attempts |
| `UserPage.Classify` | src/pages/UserPage.tsx:429-440 | a message mentioning "timeout" or "AbortError" always gives the timeout text; the result is always one of the three fixed texts or the message itself |
| `UserPage.ClassifyByPriority` | src/pages/UserPage.tsx:429-440 | otherwise "fetch" or "NetworkError" gives the connection text; otherwise "CORS" gives the CORS text; a message with no keyword is shown as it is |
| `UserPage.FailedToFetchIsRedundant` | src/pages/UserPage.tsx:433 | a message containing "Failed to fetch" already contains "fetch", so that third test never decides anything |
| `UserPage.TimeoutErrorShownAsTimeout` | src/pages/UserPage.tsx:317-318 | the error raised for an aborted attempt is shown as the timeout text |
| `UserPage.InvalidIdShownVerbatim` | src/pages/UserPage.tsx:436-438 | "Invalid user ID" carries no keyword and is shown as it is |
| `UserPage.ActionLabel` | src/pages/UserPage.tsx:349 | the action is "block" exactly when the user is active, and "unblock" exactly when not |
| `UserPage.NewStatus` | src/pages/UserPage.tsx:398-416 | the new status is the server-reported boolean when there is one, and otherwise the opposite of the current status |
| `UserPage.SetActive` | src/pages/UserPage.tsx:399-415 | the list keeps its length and order; rows with another id are unchanged; rows with the id get the new `isActive` and keep every other field |
| `UserPage.Decimal` | src/pages/UserPage.tsx:385 | the status code is rendered as decimal digits, without leading zeros, that read back as the code |
| `UserPage.HttpErrorMessage` | src/pages/UserPage.tsx:385-392 | a truthy `message` in a JSON error body is the error text; otherwise the text is "HTTP ", digits without leading zeros that read back as the status, ": " and the status text |
| `UserPage.HandleBlockUser` | src/pages/UserPage.tsx:342-449 | an empty id is rejected with no dialog and no request; otherwise the dialog asks about the action; without confirmation nothing happens; after confirmation the attempt count is that of the retried PATCH (1 to 3); success is shown exactly when that PATCH delivered a 2xx answer whose body is JSON other than `null`, and then the matching rows take the reported or toggled status and the success text is the body's message or "User berhasil di<action>."; a rethrown error, a non-2xx answer (its body message or "HTTP <status>: <statusText>") and a 2xx body that is unparsable or `null` (reading `.data` of null throws) are each shown classified; every error leaves the list unchanged |
| `UserPage.FirstResponseDecides` | src/pages/UserPage.tsx:384-424 | for any position of the first attempt that does not throw, that answer decides: a 2xx JSON answer sets the matching rows and shows success, a non-2xx answer shows its classified HTTP error, a 2xx non-JSON answer shows the parse error; errors keep the list; the attempt count is that position plus one |
| `UserPage.AllFailedShowsLastError` | src/pages/UserPage.tsx:324-338 | when all three attempts throw, all three are made, the list is unchanged and the last error's message is shown, classified |
| `UserPage.EmptyIdRejected` | src/pages/UserPage.tsx:345-347 | an empty id shows "Invalid user ID", with no dialog, no attempt and an unchanged list |
| `UserPage.SuccessfulPatchSetsStatus` | src/pages/UserPage.tsx:395-424 | a 2xx JSON answer on the first attempt applies the reported or toggled status to the matching rows and shows the success text |
| `UserPage.AllAbortedShowsTimeout` | src/pages/UserPage.tsx:324-338 | three aborted attempts give three attempts, an unchanged list and the timeout text |
| `UserPage.SetActiveProperties` | src/pages/UserPage.tsx:399-415 | applying the update twice is the same as once; an id that matches no row changes nothing |
| `IncomeHistory.ReduceFrom` | src/pages/RiwayatPage.tsx:27 | the left reduction from an initial value gives that value plus the sum of the prices |
| `IncomeHistory.TotalIncome` | src/pages/RiwayatPage.tsx:27 | the total equals the sum of `price` over all records, and is 0 for an empty history |
| `IncomeHistory.TotalOfConcatenation` | src/pages/RiwayatPage.tsx:27 | the total of two histories put together is the sum of their totals |
| `IncomeHistory.ShownTotal` | src/pages/RiwayatPage.tsx:15-27 | the eight records on the page total 760000 |

## Left out

- The real `fetch`, JSON parsing, `localStorage` and `window.location`. They are an oracle of outcomes, a decoded `Payload`, a map and a redirect target.
- The refresh body is an abstract `{refreshToken}` value. JSON string escaping is not modelled.
- Header names are compared exactly. The browser's `Headers` treats them case-insensitively, so a caller's lower-case `authorization` would be combined with the default rather than replace it. The model does not capture that.
- The `error instanceof Error` tests in the page's handler and in the hook, and the handler's fallback text "Gagal mengubah status user." for a non-`Error` value. Every value thrown on those paths is an `Error`, so no reachable behaviour is lost.
- `console.error` logging in the wrapper, the refresh and the handler. It has no effect on state.
- Timers. The 15-second abort in `fetchWithTimeout` is an attempt outcome named "AbortError". The backoff waits are returned, not waited.
- Concurrent calls and refresh coalescing. The code has none, and each call is modelled alone.
- AuthContext.UpdateUser: it reads the user from the render closure. Two updates in one render would lose the first. `UpdateTwice` assumes a re-render between them.
- Partial records: a partial record with a field explicitly set to `undefined` would overwrite that field with `undefined` under the spread. A patch field here is either present with a value or absent.
- UserPage.HandleBlockUser: the contents of the PATCH request (its url and headers) are not modelled. Neither are the intermediate "processing" dialog and the dialog colours. The `typeof userId` test is implied by the types.
- `fetchUsers`, the add-user modal and the table rendering in src/pages/UserPage.tsx. They are plain request-and-display code, outside the block/unblock logic.
- React rendering, hooks plumbing, SweetAlert styling, `Intl` currency and date formatting.
- Prices and status codes are unbounded integers. JavaScript numbers represent these integer values exactly up to 2^53.
- Pages that are static markup or demo data: HomePage, KategoriPage, PerangkatPage, the login and account-edit forms, and the routing and layout components.

=== FILE: auth_context.dfy ===
/**
 The session context (src/contexts/AuthContext.tsx): the signed-in user
 and the three operations that change it. Login is simulated in the
 source: it builds a fixed profile around the given e-mail address.
 */
module AuthContext {
  import opened Prelude

  datatype Status = Online | Offline

  datatype User = User(id: string, name: string, email: string, avatar: string, status: Status)

  /** `Partial<User>`: a field is `Some` exactly when the partial record carries it. */
  datatype UserPatch = UserPatch(
    id: Option<string>,
    name: Option<string>,
    email: Option<string>,
    avatar: Option<string>,
    status: Option<Status>)

  /** The context state: the current user, or null after logout. */
  datatype Session = Session(user: Option<User>)

  const PROFILE_ID := "1"
  const PROFILE_NAME := "Joe Natania"
  const PROFILE_EMAIL := "joenatania@gmail.com"
  const PROFILE_AVATAR := "https://placehold.co/200x200/2d3748/ffffff?text=JN"

  /** The fixed profile the provider starts with and `login` rebuilds. */
  function Profile(email: string): (u: User)
    ensures u.email == email
    ensures u.id == PROFILE_ID && u.name == PROFILE_NAME && u.avatar == PROFILE_AVATAR && u.status == Online
  {
    User(PROFILE_ID, PROFILE_NAME, email, PROFILE_AVATAR, Online)
  }

  /** The provider's first state: already signed in as the default profile. */
  function Initial(): (s: Session)
    ensures s.user.Some?
    ensures s.user.value.email == PROFILE_EMAIL && s.user.value.status == Online
    ensures s.user == Some(Profile(PROFILE_EMAIL))
  {
    Session(Some(Profile(PROFILE_EMAIL)))
  }

  /** `login(email)`: replaces whatever user there was (or none) by the profile for `email`. */
  function Login(s: Session, email: string): (r: Session)
    ensures r.user.Some? && r.user.value.email == email
    ensures r.user.value == Profile(email)
  {
    Session(Some(Profile(email)))
  }

  /** `logout`: no user. */
  function Logout(s: Session): (r: Session)
    ensures r.user.None?
  {
    Session(None)
  }

  function Pick<T>(field: Option<T>, current: T): T
  {
    if field.Some? then field.value else current
  }

  /** Every field the partial record carries already holds that value in `u`. */
  predicate Agrees(u: User, p: UserPatch)
  {
    && (p.id.Some? ==> p.id.value == u.id)
    && (p.name.Some? ==> p.name.value == u.name)
    && (p.email.Some? ==> p.email.value == u.email)
    && (p.avatar.Some? ==> p.avatar.value == u.avatar)
    && (p.status.Some? ==> p.status.value == u.status)
  }

  /**
   `{...user, ...patch}`: the result agrees with the patch on every field
   the patch carries and with `u` on all others; it is `u` itself exactly
   when the patch agrees with `u` already.
   */
  function Apply(u: User, p: UserPatch): (r: User)
    ensures Agrees(r, p)
    ensures p.id.None? ==> r.id == u.id
    ensures p.name.None? ==> r.name == u.name
    ensures p.email.None? ==> r.email == u.email
    ensures p.avatar.None? ==> r.avatar == u.avatar
    ensures p.status.None? ==> r.status == u.status
    ensures r == u <==> Agrees(u, p)
  {
    User(Pick(p.id, u.id), Pick(p.name, u.name), Pick(p.email, u.email), Pick(p.avatar, u.avatar),
         Pick(p.status, u.status))
  }

  /** `updateUser(patch)`: merge into the current user; without a user, nothing happens. */
  function UpdateUser(s: Session, p: UserPatch): (r: Session)
    ensures s.user.None? ==> r == s
    ensures s.user.Some? ==> r.user.Some? && r.user.value == Apply(s.user.value, p)
  {
    if s.user.Some? then Session(Some(Apply(s.user.value, p))) else s
  }

  /** The partial record with no fields. */
  function EmptyPatch(): UserPatch
  {
    UserPatch(None, None, None, None, None)
  }

  function Later<T>(first: Option<T>, second: Option<T>): Option<T>
  {
    if second.Some? then second else first
  }

  /** `{...p, ...q}`: the fields of either patch, `q`'s winning where both have one. */
  function Merge(p: UserPatch, q: UserPatch): UserPatch
  {
    UserPatch(Later(p.id, q.id), Later(p.name, q.name), Later(p.email, q.email),
              Later(p.avatar, q.avatar), Later(p.status, q.status))
  }

  /** Updating with an empty partial record changes nothing. */
  lemma UpdateWithEmptyPatch(s: Session)
    ensures UpdateUser(s, EmptyPatch()) == s
  {
  }

  /** Two successive updates equal one update with the merged patch, the later fields winning. */
  lemma UpdateTwice(s: Session, p: UserPatch, q: UserPatch)
    ensures UpdateUser(UpdateUser(s, p), q) == UpdateUser(s, Merge(p, q))
  {
  }

  /** Exactly the fields the patch carries can differ; a field it carries takes the patch's value. */
  lemma UpdateChangesOnlyCarriedFields(s: Session, p: UserPatch)
    requires s.user.Some?
    ensures var u := s.user.value;
      var v := UpdateUser(s, p).user.value;
      && (p.id.None? ==> v.id == u.id) && (p.id.Some? ==> v.id == p.id.value)
      && (p.name.None? ==> v.name == u.name) && (p.name.Some? ==> v.name == p.name.value)
      && (p.email.None? ==> v.email == u.email) && (p.email.Some? ==> v.email == p.email.value)
      && (p.avatar.None? ==> v.avatar == u.avatar) && (p.avatar.Some? ==> v.avatar == p.avatar.value)
      && (p.status.None? ==> v.status == u.status) && (p.status.Some? ==> v.status == p.status.value)
  {
  }

  /** Logging out twice is the same as once, and no update can bring the user back. */
  lemma LogoutIdempotent(s: Session, p: UserPatch)
    ensures Logout(Logout(s)) == Logout(s)
    ensures UpdateUser(Logout(s), p) == Logout(s)
  {
  }

  /** The provider starts in exactly the state that logging in with the default e-mail produces, from any state. */
  lemma InitialIsDefaultLogin(s: Session)
    ensures Initial() == Login(s, PROFILE_EMAIL)
    ensures Initial() == Login(Logout(s), PROFILE_EMAIL)
  {
  }

  /** Login ignores the previous state: logging in after logout or after another login gives the same session. */
  lemma LoginOverwrites(s: Session, t: Session, email: string)
    ensures Login(s, email) == Login(t, email)
    ensures Login(Logout(s), email) == Login(s, email)
  {
  }
}

=== FILE: auth_middleware.dfy ===
/**
 The authenticated request wrapper (`AuthMiddleware` in src/lib/authMiddleware.ts).

 Browser storage is a finite map from keys to strings; the network is an
 oracle `Network` holding the outcome of each request the wrapper may send
 (the target call, the refresh call, the retried target call); the page
 navigation is an optional redirect target. Every operation is a pure
 transition that returns its reply, the new storage, the redirect (if any)
 and the requests it issued, in order.
 */
module AuthMiddleware {
  import opened Prelude

  /** localStorage: key to string value. */
  type Store = map<string, string>

  /** HTTP header names to values (a plain object in the source). */
  type Headers = map<string, string>

  const ACCESS_TOKEN_KEY := "accessToken"
  const REFRESH_TOKEN_KEY := "refreshToken"
  const REFRESH_URL := "http://34.101.143.2:3000/api/auth/refresh"
  const LOGIN_PATH := "/login"
  const UNAUTHORIZED := 401

  /** Request body: the caller's text, or the JSON object `{refreshToken}` the refresh call posts. */
  datatype Body = NoBody | Text(text: string) | RefreshTokenJson(token: string)

  /** What a caller passes: every field optional; absent headers behave as no headers. */
  datatype RequestConfig = RequestConfig(httpMethod: Option<string>, headers: Headers, body: Option<string>)

  /** A request as it leaves the wrapper. */
  datatype Request = Request(url: string, httpMethod: Option<string>, headers: Headers, body: Body)

  /**
   The decoded body of a response. `Grant` is a JSON body whose `data`
   field is neither null nor undefined, so that reading `data.accessToken`
   does not throw; `data` need not be an object (for a string or a number
   both fields read as undefined, i.e. `Grant(None, None)`). `accessToken`
   is None when undefined and otherwise its string coercion; `refreshToken`
   is None when falsy. Every other body (not JSON, null, or without a
   usable `data`) is `Opaque`.
   */
  datatype Payload = Opaque(text: string) | Grant(accessToken: Option<string>, refreshToken: Option<string>)

  datatype Response = Response(status: int, payload: Payload)

  /** What one `fetch` produces: a response, or a rejected promise (transport failure). */
  datatype Outcome = Received(response: Response) | NetworkError(message: string)

  /** The oracle: the outcome each of the three possible requests would have. */
  datatype Network = Network(first: Outcome, refresh: Outcome, retry: Outcome)

  /** The errors `authenticatedFetch` throws. */
  datatype FetchError = NoAccessToken | AuthenticationFailed | Transport(message: string)

  /** Result of `authenticatedFetch`: a resolved response or a thrown error. */
  datatype Reply = Resolved(response: Response) | Thrown(error: FetchError)

  /** One call of `authenticatedFetch`: its reply, the storage afterwards, the redirect and the requests sent. */
  datatype Step = Step(reply: Reply, store: Store, redirect: Option<string>, sent: seq<Request>)

  /** One call of `refreshAccessToken`. */
  datatype Refresh = Refresh(refreshed: bool, store: Store, sent: seq<Request>)

  /** The effect of `logout` / `redirectToLogin`: storage afterwards and the navigation target. */
  datatype Exit = Exit(store: Store, redirect: string)

  /** `Error.message` of each thrown error. */
  function ErrorMessage(e: FetchError): string
  {
    match e
    case NoAccessToken => "No access token available"
    case AuthenticationFailed => "Authentication failed"
    case Transport(m) => m
  }

  /** `localStorage.getItem`. */
  function GetItem(store: Store, key: string): (r: Option<string>)
    ensures r.Some? <==> key in store
    ensures r.Some? ==> r.value == store[key]
  {
    if key in store then Some(store[key]) else None
  }

  /** Template-literal rendering of `string | null`. */
  function Render(o: Option<string>): string
  {
    if o.Some? then o.value else "null"
  }

  /** Rendering of a JSON field that may be missing, as `localStorage.setItem` coerces it. */
  function Coerce(o: Option<string>): string
  {
    if o.Some? then o.value else "undefined"
  }

  function Bearer(token: string): string
  {
    "Bearer " + token
  }

  /** The non-empty access token a key holds, if any (`!!getAccessToken()`). */
  predicate HasToken(store: Store, key: string)
  {
    key in store && store[key] != ""
  }

  /** Headers of the first attempt: the two defaults, then the caller's headers spread over them. */
  function OutgoingHeaders(token: string, caller: Headers): (h: Headers)
    ensures "Content-Type" in h && "Authorization" in h
    ensures h.Keys == caller.Keys + {"Content-Type", "Authorization"}
    ensures forall k :: k in caller ==> h[k] == caller[k]
    ensures "Content-Type" !in caller ==> h["Content-Type"] == "application/json"
    ensures "Authorization" !in caller ==> h["Authorization"] == Bearer(token)
  {
    map["Content-Type" := "application/json", "Authorization" := Bearer(token)] + caller
  }

  function ConfigBody(b: Option<string>): Body
  {
    if b.Some? then Text(b.value) else NoBody
  }

  /** The POST the refresh call sends. */
  function RefreshRequest(token: string): Request
  {
    Request(REFRESH_URL, Some("POST"), map["Content-Type" := "application/json"], RefreshTokenJson(token))
  }

  predicate IsRefreshRequest(r: Request)
  {
    r.body.RefreshTokenJson?
  }

  /** Both token keys removed; every other key kept. */
  function ClearTokens(store: Store): (s: Store)
    ensures ACCESS_TOKEN_KEY !in s && REFRESH_TOKEN_KEY !in s
    ensures forall k :: k != ACCESS_TOKEN_KEY && k != REFRESH_TOKEN_KEY ==>
      (k in s <==> k in store) && (k in s ==> s[k] == store[k])
  {
    store - {ACCESS_TOKEN_KEY, REFRESH_TOKEN_KEY}
  }

  /** `redirectToLogin`: forget both tokens and navigate to the login page. */
  function RedirectToLogin(store: Store): (e: Exit)
    ensures ACCESS_TOKEN_KEY !in e.store && REFRESH_TOKEN_KEY !in e.store
    ensures e.redirect == LOGIN_PATH
    ensures e.store.Keys == store.Keys - {ACCESS_TOKEN_KEY, REFRESH_TOKEN_KEY}
    ensures forall k :: k in e.store ==> e.store[k] == store[k]
  {
    Exit(ClearTokens(store), LOGIN_PATH)
  }

  /** `logout`: the same effect as the redirect after a failed refresh. */
  function Logout(store: Store): (e: Exit)
    ensures ACCESS_TOKEN_KEY !in e.store && REFRESH_TOKEN_KEY !in e.store
    ensures e.redirect == LOGIN_PATH
    ensures e.store.Keys == store.Keys - {ACCESS_TOKEN_KEY, REFRESH_TOKEN_KEY}
    ensures forall k :: k in e.store ==> e.store[k] == store[k]
  {
    RedirectToLogin(store)
  }

  /** `isAuthenticated`: a stored access token that is not the empty string. */
  function IsAuthenticated(store: Store): (b: bool)
    ensures b <==> ACCESS_TOKEN_KEY in store && store[ACCESS_TOKEN_KEY] != ""
  {
    Truthy(GetItem(store, ACCESS_TOKEN_KEY))
  }

  /**
   `refreshAccessToken`: with no (or an empty) refresh token, fail without a
   request. Otherwise post it; a transport error, a non-2xx status or a body
   whose `data` is missing or null fails and leaves storage alone. On success the
   access token is overwritten, and the refresh token only when the response
   carries a non-empty one.
   */
  function RefreshAccessToken(store: Store, outcome: Outcome): (r: Refresh)
    ensures !HasToken(store, REFRESH_TOKEN_KEY) ==> r == Refresh(false, store, [])
    ensures HasToken(store, REFRESH_TOKEN_KEY) ==> r.sent == [RefreshRequest(store[REFRESH_TOKEN_KEY])]
    ensures !r.refreshed ==> r.store == store
    ensures r.refreshed <==>
      && HasToken(store, REFRESH_TOKEN_KEY)
      && outcome.Received? && IsOk(outcome.response.status)
      && outcome.response.payload.Grant?
    ensures r.refreshed ==>
      && ACCESS_TOKEN_KEY in r.store
      && r.store[ACCESS_TOKEN_KEY] == Coerce(outcome.response.payload.accessToken)
      && REFRESH_TOKEN_KEY in r.store
      && r.store[REFRESH_TOKEN_KEY] ==
           (if Truthy(outcome.response.payload.refreshToken)
            then outcome.response.payload.refreshToken.value
            else store[REFRESH_TOKEN_KEY])
    ensures forall k :: k != ACCESS_TOKEN_KEY && k != REFRESH_TOKEN_KEY ==>
      (k in r.store <==> k in store) && (k in r.store ==> r.store[k] == store[k])
  {
    var refreshToken := GetItem(store, REFRESH_TOKEN_KEY);
    if !Truthy(refreshToken) then
      Refresh(false, store, [])
    else
      var request := RefreshRequest(refreshToken.value);
      match outcome
      case NetworkError(_) => Refresh(false, store, [request])
      case Received(response) =>
        if !IsOk(response.status) then
          Refresh(false, store, [request])
        else
          match response.payload
          case Opaque(_) => Refresh(false, store, [request])
          case Grant(access, rotated) =>
            var updated := store[ACCESS_TOKEN_KEY := Coerce(access)];
            var rotatedStore := if Truthy(rotated) then updated[REFRESH_TOKEN_KEY := rotated.value] else updated;
            Refresh(true, rotatedStore, [request])
  }

  /** How a `fetch` outcome surfaces to the caller of the wrapper. */
  function Surface(o: Outcome): Reply
  {
    match o
    case Received(response) => Resolved(response)
    case NetworkError(m) => Thrown(Transport(m))
  }

  /**
   `authenticatedFetch(url, config)`: attempt, on 401 refresh once, then
   either retry once with the new token or clear the tokens, redirect to
   the login page and throw "Authentication failed".
   */
  function AuthenticatedFetch(store: Store, url: string, config: RequestConfig, net: Network): (s: Step)
    // no access token: throw before any request, nothing else happens
    ensures !IsAuthenticated(store) ==> s == Step(Thrown(NoAccessToken), store, None, [])
    // otherwise the first request carries the merged headers and the caller's url, method and body
    ensures IsAuthenticated(store) ==>
      && |s.sent| >= 1
      && s.sent[0] == Request(url, config.httpMethod, OutgoingHeaders(store[ACCESS_TOKEN_KEY], config.headers),
                              ConfigBody(config.body))
    // a transport failure or any status other than 401 is surfaced unchanged, with no refresh
    ensures IsAuthenticated(store) && !(net.first.Received? && net.first.response.status == UNAUTHORIZED) ==>
      s == Step(Surface(net.first), store, None, s.sent[..1])
    // at most one refresh request and at most one retry
    ensures |s.sent| <= 3
    ensures forall i :: 0 <= i < |s.sent| && IsRefreshRequest(s.sent[i]) ==> i == 1
    // the redirect happens exactly when the call fails authentication
    ensures s.redirect.Some? <==> s.reply == Thrown(AuthenticationFailed)
    ensures s.redirect.Some? ==>
      s.redirect.value == LOGIN_PATH && ACCESS_TOKEN_KEY !in s.store && REFRESH_TOKEN_KEY !in s.store
  {
    var token := GetItem(store, ACCESS_TOKEN_KEY);
    if !Truthy(token) then
      Step(Thrown(NoAccessToken), store, None, [])
    else
      var headers := OutgoingHeaders(token.value, config.headers);
      var request := Request(url, config.httpMethod, headers, ConfigBody(config.body));
      match net.first
      case NetworkError(m) => Step(Thrown(Transport(m)), store, None, [request])
      case Received(response) =>
        if response.status != UNAUTHORIZED then
          Step(Resolved(response), store, None, [request])
        else
          var refresh := RefreshAccessToken(store, net.refresh);
          if refresh.refreshed then
            var newToken := GetItem(refresh.store, ACCESS_TOKEN_KEY);
            var retry := request.(headers := headers["Authorization" := Bearer(Render(newToken))]);
            Step(Surface(net.retry), refresh.store, None, [request] + refresh.sent + [retry])
          else
            var exit := RedirectToLogin(refresh.store);
            Step(Thrown(AuthenticationFailed), exit.store, Some(exit.redirect), [request] + refresh.sent)
  }

  /** The call throws "No access token available" exactly when `isAuthenticated` is false. */
  lemma NoAccessTokenIffUnauthenticated(store: Store, url: string, config: RequestConfig, net: Network)
    ensures AuthenticatedFetch(store, url, config, net).reply == Thrown(NoAccessToken) <==> !IsAuthenticated(store)
    ensures !IsAuthenticated(store) ==> AuthenticatedFetch(store, url, config, net).sent == []
  {
  }

  /**
   A 401 followed by a successful refresh sends exactly three requests:
   the original, the refresh, and a retry identical to the original except
   that `Authorization` carries the freshly stored token, even over a
   caller-supplied value. The retry's outcome is final, a second 401 included.
   */
  lemma RefreshedCallRetriesOnce(store: Store, url: string, config: RequestConfig, net: Network)
    requires IsAuthenticated(store)
    requires net.first.Received? && net.first.response.status == UNAUTHORIZED
    requires RefreshAccessToken(store, net.refresh).refreshed
    ensures var s := AuthenticatedFetch(store, url, config, net);
      var renewed := RefreshAccessToken(store, net.refresh).store;
      && |s.sent| == 3
      && IsRefreshRequest(s.sent[1]) && !IsRefreshRequest(s.sent[0]) && !IsRefreshRequest(s.sent[2])
      && s.sent[2].url == s.sent[0].url == url
      && s.sent[2].httpMethod == s.sent[0].httpMethod
      && s.sent[2].body == s.sent[0].body
      && s.sent[2].headers.Keys == s.sent[0].headers.Keys
      && s.sent[2].headers["Authorization"] == Bearer(renewed[ACCESS_TOKEN_KEY])
      && (forall k :: k in s.sent[0].headers && k != "Authorization" ==> s.sent[2].headers[k] == s.sent[0].headers[k])
      && s.reply == Surface(net.retry)
      && s.store == renewed
      && s.redirect == None
  {
  }

  /**
   A 401 followed by a failed refresh removes both tokens, keeps every other
   stored key, redirects to the login page and throws "Authentication failed";
   nothing is retried.
   */
  lemma FailedRefreshSignsOut(store: Store, url: string, config: RequestConfig, net: Network)
    requires IsAuthenticated(store)
    requires net.first.Received? && net.first.response.status == UNAUTHORIZED
    requires !RefreshAccessToken(store, net.refresh).refreshed
    ensures var s := AuthenticatedFetch(store, url, config, net);
      && s.reply == Thrown(AuthenticationFailed)
      && ErrorMessage(s.reply.error) == "Authentication failed"
      && ACCESS_TOKEN_KEY !in s.store && REFRESH_TOKEN_KEY !in s.store
      && s.store == Logout(store).store
      && s.redirect == Some(LOGIN_PATH)
      && |s.sent| == (if HasToken(store, REFRESH_TOKEN_KEY) then 2 else 1)
  {
  }

  /** Whatever happens, only the two token keys of storage can change. */
  lemma OnlyTokensChange(store: Store, url: string, config: RequestConfig, net: Network)
    ensures var s := AuthenticatedFetch(store, url, config, net);
      forall k :: k != ACCESS_TOKEN_KEY && k != REFRESH_TOKEN_KEY ==>
        (k in s.store <==> k in store) && (k in s.store ==> s.store[k] == store[k])
  {
  }

  /** The refresh token is replaced only by a non-empty token the server supplied. */
  lemma RotationOnlyWhenSupplied(store: Store, outcome: Outcome)
    requires REFRESH_TOKEN_KEY in store
    ensures var r := RefreshAccessToken(store, outcome);
      REFRESH_TOKEN_KEY in r.store &&
      (r.store[REFRESH_TOKEN_KEY] != store[REFRESH_TOKEN_KEY] ==>
         r.refreshed && Truthy(outcome.response.payload.refreshToken)
         && r.store[REFRESH_TOKEN_KEY] == outcome.response.payload.refreshToken.value)
  {
  }

  /** Logging out twice leaves the same storage and redirect as logging out once. */
  lemma LogoutIdempotent(store: Store)
    ensures Logout(Logout(store).store) == Logout(store)
    ensures !IsAuthenticated(Logout(store).store)
  {
  }

  /**
   Scenario: refresh token "R1", the server answers the refresh with
   `{data: {accessToken: "A2"}}` only. The access token becomes "A2" and the
   refresh token stays "R1".
   */
  lemma RefreshWithoutRotation()
    ensures var store := map[ACCESS_TOKEN_KEY := "A1", REFRESH_TOKEN_KEY := "R1"];
      var r := RefreshAccessToken(store, Received(Response(200, Grant(Some("A2"), None))));
      r.refreshed && r.store == map[ACCESS_TOKEN_KEY := "A2", REFRESH_TOKEN_KEY := "R1"]
  {
  }

  /**
   Scenario: 401, then a successful refresh, then a 200 on the retry. Two
   requests go to the target, one to the refresh endpoint, and the reply is
   the retry's response.
   */
  lemma ExpiredThenRecovered(url: string, ok: Response)
    requires ok.status == 200
    ensures var store := map[ACCESS_TOKEN_KEY := "A1", REFRESH_TOKEN_KEY := "R1"];
      var net := Network(Received(Response(UNAUTHORIZED, Opaque(""))),
                         Received(Response(200, Grant(Some("A2"), Some("R2")))),
                         Received(ok));
      var s := AuthenticatedFetch(store, url, RequestConfig(None, map[], None), net);
      && s.reply == Resolved(ok)
      && |s.sent| == 3
      && s.sent[0].url == url && s.sent[1].url == REFRESH_URL && s.sent[2].url == url
      && s.sent[2].headers["Authorization"] == "Bearer A2"
      && s.store == map[ACCESS_TOKEN_KEY := "A2", REFRESH_TOKEN_KEY := "R2"]
  {
  }
}

=== FILE: authenticated_fetch_hook.dfy ===
/**
 The hooks of src/hooks/useAuthenticatedFetch.ts: the wrapper call as seen
 from React, which also signs the session context out when the wrapper
 reports an authentication failure, and the authentication status query.
 */
module AuthenticatedFetchHook {
  import opened Prelude
  import AuthMiddleware
  import AuthContext

  const AUTHENTICATION_FAILED_MESSAGE := "Authentication failed"

  /** One call through the hook: the wrapper's step and the context session afterwards. */
  datatype HookStep = HookStep(step: AuthMiddleware.Step, session: AuthContext.Session)

  /** The hook signs out on an error whose message is exactly "Authentication failed". */
  predicate TriggersLogout(reply: AuthMiddleware.Reply)
  {
    reply.Thrown? && AuthMiddleware.ErrorMessage(reply.error) == AUTHENTICATION_FAILED_MESSAGE
  }

  /**
   `useAuthenticatedFetch().authenticatedFetch`: the wrapper's outcome is
   passed on as is (a response is returned, an error rethrown); the context
   `logout` runs first when the error message is "Authentication failed".
   */
  function AuthenticatedFetch(
    session: AuthContext.Session, store: AuthMiddleware.Store, url: string,
    config: AuthMiddleware.RequestConfig, net: AuthMiddleware.Network): (h: HookStep)
    ensures h.step == AuthMiddleware.AuthenticatedFetch(store, url, config, net)
    ensures TriggersLogout(h.step.reply) ==> h.session.user.None?
    ensures !TriggersLogout(h.step.reply) ==> h.session == session
  {
    var step := AuthMiddleware.AuthenticatedFetch(store, url, config, net);
    if step.reply.Thrown? && AuthMiddleware.ErrorMessage(step.reply.error) == AUTHENTICATION_FAILED_MESSAGE then
      HookStep(step, AuthContext.Logout(session))
    else
      HookStep(step, session)
  }

  /** `useAuthStatus().isAuthenticated()`: whether storage holds a non-empty access token. */
  function IsAuthenticated(store: AuthMiddleware.Store): (b: bool)
    ensures b <==> AuthMiddleware.ACCESS_TOKEN_KEY in store && store[AuthMiddleware.ACCESS_TOKEN_KEY] != ""
    ensures b == AuthMiddleware.IsAuthenticated(store)
  {
    AuthMiddleware.IsAuthenticated(store)
  }

  /**
   The context is signed out exactly when the wrapper failed authentication
   or threw a transport error that happens to carry the same message; a
   missing token never signs out.
   */
  lemma LogoutOnlyOnAuthenticationFailure(
    session: AuthContext.Session, store: AuthMiddleware.Store, url: string,
    config: AuthMiddleware.RequestConfig, net: AuthMiddleware.Network)
    requires session.user.Some?
    ensures var h := AuthenticatedFetch(session, store, url, config, net);
      h.session.user.None? <==>
        (h.step.reply == AuthMiddleware.Thrown(AuthMiddleware.AuthenticationFailed)
         || h.step.reply == AuthMiddleware.Thrown(AuthMiddleware.Transport(AUTHENTICATION_FAILED_MESSAGE)))
    ensures var h := AuthenticatedFetch(session, store, url, config, net);
      h.step.reply == AuthMiddleware.Thrown(AuthMiddleware.NoAccessToken) ==> h.session == session
  {
  }

  /**
   After a failed refresh the hook leaves no trace of the session: no
   context user, no tokens in storage, and the page heads to the login page.
   */
  lemma FailedRefreshSignsOutEverywhere(
    session: AuthContext.Session, store: AuthMiddleware.Store, url: string,
    config: AuthMiddleware.RequestConfig, net: AuthMiddleware.Network)
    requires AuthMiddleware.IsAuthenticated(store)
    requires net.first.Received? && net.first.response.status == AuthMiddleware.UNAUTHORIZED
    requires !AuthMiddleware.RefreshAccessToken(store, net.refresh).refreshed
    ensures var h := AuthenticatedFetch(session, store, url, config, net);
      && h.session.user.None?
      && !IsAuthenticated(h.step.store)
      && AuthMiddleware.REFRESH_TOKEN_KEY !in h.step.store
      && h.step.redirect == Some(AuthMiddleware.LOGIN_PATH)
  {
    AuthMiddleware.FailedRefreshSignsOut(store, url, config, net);
  }
}

=== FILE: income_history.dfy ===
/**
 The income ledger of src/pages/RiwayatPage.tsx: rental records with a
 price in rupiah, and the page total computed as
 `records.reduce((sum, record) => sum + record.price, 0)`.
 */
module IncomeHistory {

  datatype IncomeRecord = IncomeRecord(id: int, deviceName: string, category: string, rentalTime: string, price: int)

  /** Reference definition: the sum of the prices, element by element. */
  function SumPrices(records: seq<IncomeRecord>): int
  {
    if records == [] then 0 else records[0].price + SumPrices(records[1..])
  }

  /** `Array.prototype.reduce` from the left, starting from `acc`. */
  function ReduceFrom(acc: int, records: seq<IncomeRecord>): (total: int)
    ensures total == acc + SumPrices(records)
    decreases |records|
  {
    if records == [] then acc else ReduceFrom(acc + records[0].price, records[1..])
  }

  /** `totalIncome`: the reduction with initial value 0, i.e. the sum of all prices. */
  function TotalIncome(records: seq<IncomeRecord>): (total: int)
    ensures total == SumPrices(records)
    ensures records == [] ==> total == 0
  {
    ReduceFrom(0, records)
  }

  /** Prices add up across a concatenation. */
  lemma {:induction false} SumPricesAppend(a: seq<IncomeRecord>, b: seq<IncomeRecord>)
    ensures SumPrices(a + b) == SumPrices(a) + SumPrices(b)
    decreases |a|
  {
    if a == [] {
      assert a + b == b;
    } else {
      assert (a + b)[1..] == a[1..] + b;
      SumPricesAppend(a[1..], b);
    }
  }

  /** The total of two histories put together is the sum of their totals. */
  lemma TotalOfConcatenation(a: seq<IncomeRecord>, b: seq<IncomeRecord>)
    ensures TotalIncome(a + b) == TotalIncome(a) + TotalIncome(b)
  {
    SumPricesAppend(a, b);
  }

  /** The eight records the page shows. */
  const SHOWN: seq<IncomeRecord> := [
    IncomeRecord(1, "Perangkat 1", "PC Gaming", "10:00 - 12:00", 130000),
    IncomeRecord(2, "Perangkat 3", "Console PS5", "10:15 - 11:15", 70000),
    IncomeRecord(3, "Perangkat 2", "PC Gaming", "11:00 - 13:00", 130000),
    IncomeRecord(4, "Perangkat 5", "PC Office", "12:30 - 14:30", 80000),
    IncomeRecord(5, "Perangkat 4", "PC Gaming", "13:00 - 14:00", 65000),
    IncomeRecord(6, "Perangkat 6", "Console Xbox", "14:00 - 15:30", 95000),
    IncomeRecord(7, "Perangkat 7", "PC Gaming", "15:00 - 17:00", 130000),
    IncomeRecord(8, "Perangkat 8", "PC Office", "16:30 - 18:00", 60000)
  ]

  /** The page's total for the shown records is Rp 760.000. */
  lemma ShownTotal()
    ensures TotalIncome(SHOWN) == 760000
  {
    assert SHOWN == SHOWN[..4] + SHOWN[4..];
    TotalOfConcatenation(SHOWN[..4], SHOWN[4..]);
  }
}

=== FILE: prelude.dfy ===
/**
 Small shared vocabulary: an optional value, the way JavaScript decides
 whether an optional string is "truthy", and substring search.
 */
module Prelude {

  /** A value that may be absent (`null` / `undefined` in the source). */
  datatype Option<+T> = None | Some(value: T)

  /** `Response.ok`: a 2xx status. */
  predicate IsOk(status: int)
  {
    200 <= status <= 299
  }

  /** JavaScript truthiness of a `string | null`: present and not the empty string. */
  predicate Truthy(o: Option<string>)
  {
    o.Some? && o.value != ""
  }

  /** `prefix` is an initial segment of `s`. */
  predicate StartsWith(s: string, prefix: string)
  {
    |prefix| <= |s| && s[..|prefix|] == prefix
  }

  /** `String.prototype.includes`: `sub` occurs somewhere in `s`. */
  predicate Contains(s: string, sub: string)
    decreases |s|
  {
    StartsWith(s, sub) || (|s| > 0 && Contains(s[1..], sub))
  }

  /** `sub` occurs in `s` beginning at offset `k`. */
  predicate OccursAt(s: string, sub: string, k: int)
  {
    0 <= k <= |s| - |sub| && s[k..k + |sub|] == sub
  }

  /** Containment is witnessed by an offset at which `sub` begins. */
  lemma {:induction false} ContainsAt(s: string, sub: string) returns (k: int)
    requires Contains(s, sub)
    ensures OccursAt(s, sub, k)
    decreases |s|
  {
    if StartsWith(s, sub) {
      k := 0;
      assert s[0..0 + |sub|] == sub;
    } else {
      var j := ContainsAt(s[1..], sub);
      k := j + 1;
      assert s[k..k + |sub|] == s[1..][j..j + |sub|];
    }
  }

  /** Conversely, an occurrence at offset `k` makes `s` contain `sub`. */
  lemma {:induction false} ContainsFromOffset(s: string, sub: string, k: int)
    requires OccursAt(s, sub, k)
    ensures Contains(s, sub)
    decreases k
  {
    if k == 0 {
      assert StartsWith(s, sub);
    } else {
      assert s[1..][k - 1..k - 1 + |sub|] == s[k..k + |sub|];
      ContainsFromOffset(s[1..], sub, k - 1);
    }
  }

  /** Containment is transitive: a string that contains `mid` contains everything `mid` contains. */
  lemma ContainsTransitive(s: string, mid: string, sub: string)
    requires Contains(s, mid)
    requires Contains(mid, sub)
    ensures Contains(s, sub)
  {
    var i := ContainsAt(s, mid);
    var j := ContainsAt(mid, sub);
    forall t | 0 <= t < |sub|
      ensures s[i + j + t] == sub[t]
    {
      assert sub[t] == mid[j + t] == s[i..i + |mid|][j + t];
    }
    assert s[i + j..i + j + |sub|] == sub;
    ContainsFromOffset(s, sub, i + j);
  }

  /** A string built around `sub` contains it. */
  lemma ContainsInfix(before: string, sub: string, after: string)
    ensures Contains(before + sub + after, sub)
  {
    var s := before + sub + after;
    assert s[|before|..|before| + |sub|] == sub;
    ContainsFromOffset(s, sub, |before|);
  }

  /** A string in which the first character of `sub` never appears does not contain `sub`. */
  lemma {:induction false} MissingFirstChar(s: string, sub: string)
    requires |sub| > 0
    requires sub[0] !in s
    ensures !Contains(s, sub)
    decreases |s|
  {
    if |s| > 0 {
      assert forall c :: c in s[1..] ==> c in s;
      MissingFirstChar(s[1..], sub);
      if |sub| <= |s| {
        assert s[..|sub|][0] == s[0];
      }
    }
  }
}

=== FILE: route_guards.dfy ===
/**
 The two route guards, src/components/ProtectedRoute.tsx and
 src/components/PublicRoute.tsx. Each decides between a loading spinner, a
 replacing navigation, and rendering its children. Both read `isLoading`
 and `accessToken` from the session context, which does not provide them
 (it exposes only the user and its operations); they are taken here as
 explicit inputs.
 */
module RouteGuards {
  import opened Prelude
  import AuthMiddleware
  import AuthContext

  const LOGIN_PATH := AuthMiddleware.LOGIN_PATH
  const HOME_PATH := "/"

  datatype View = Spinner | Navigate(to: string, replace: bool) | Children

  /** What a guard reads: the context fields and browser storage. */
  datatype GuardInput = GuardInput(
    isLoading: bool,
    store: AuthMiddleware.Store,
    user: Option<AuthContext.User>,
    accessToken: Option<string>)

  /** `AuthMiddleware.isAuthenticated() && user && accessToken`. */
  predicate SignedIn(g: GuardInput)
  {
    AuthMiddleware.IsAuthenticated(g.store) && g.user.Some? && Truthy(g.accessToken)
  }

  /** ProtectedRoute: spinner while loading, children when signed in, otherwise replace with /login. */
  function ProtectedRoute(g: GuardInput): (v: View)
    ensures g.isLoading ==> v == Spinner
    ensures !g.isLoading ==> (v == Children <==> SignedIn(g))
    ensures !g.isLoading && !SignedIn(g) ==> v == Navigate(LOGIN_PATH, true)
  {
    if g.isLoading then Spinner
    else if !SignedIn(g) then Navigate(LOGIN_PATH, true)
    else Children
  }

  /** PublicRoute: spinner while loading, replace with / when signed in, otherwise children. */
  function PublicRoute(g: GuardInput): (v: View)
    ensures g.isLoading ==> v == Spinner
    ensures !g.isLoading ==> (v == Children <==> !SignedIn(g))
    ensures !g.isLoading && SignedIn(g) ==> v == Navigate(HOME_PATH, true)
  {
    if g.isLoading then Spinner
    else if SignedIn(g) then Navigate(HOME_PATH, true)
    else Children
  }

  /** Signed in means all three conditions: a stored non-empty token, a user, and a non-empty context token. */
  lemma SignedInNeedsAllThree(g: GuardInput)
    ensures SignedIn(g) <==>
      && AuthMiddleware.ACCESS_TOKEN_KEY in g.store && g.store[AuthMiddleware.ACCESS_TOKEN_KEY] != ""
      && g.user.Some?
      && g.accessToken.Some? && g.accessToken.value != ""
  {
  }

  /** Once loading is over, exactly one of the two guards renders its children, and the other navigates. */
  lemma GuardsAreComplementary(g: GuardInput)
    requires !g.isLoading
    ensures (ProtectedRoute(g) == Children) != (PublicRoute(g) == Children)
    ensures ProtectedRoute(g).Navigate? != PublicRoute(g).Navigate?
  {
  }

  /** While loading, neither guard decides. */
  lemma LoadingDecidesNothing(g: GuardInput)
    requires g.isLoading
    ensures ProtectedRoute(g) == PublicRoute(g) == Spinner
  {
  }

  /**
   With the context as written, `isLoading` and `accessToken` read as
   undefined: the protected guard then always sends the visitor to the login
   page and the public guard always renders, whatever storage and user hold.
   */
  lemma ContextWithoutTokenLocksOut(store: AuthMiddleware.Store, user: Option<AuthContext.User>)
    ensures ProtectedRoute(GuardInput(false, store, user, None)) == Navigate(LOGIN_PATH, true)
    ensures PublicRoute(GuardInput(false, store, user, None)) == Children
  {
  }

  /** After the context's logout (no user) the protected guard redirects whatever the tokens are. */
  lemma LoggedOutIsRedirected(store: AuthMiddleware.Store, s: AuthContext.Session, token: Option<string>)
    ensures ProtectedRoute(GuardInput(false, store, AuthContext.Logout(s).user, token)) == Navigate(LOGIN_PATH, true)
  {
  }
}

=== FILE: user_page.dfy ===
/**
 The logic of the user-management page (src/pages/UserPage.tsx): the
 bounded retry with capped exponential backoff around each PATCH, the
 block/unblock handler with its list update, and the prioritised
 translation of error messages into the text shown to the administrator.

 The network is an oracle: one `Attempt` per try, already resolved to a
 response or a thrown error (an abort by the 15-second timer shows up as an
 error named "AbortError"). The confirmation dialog is the boolean
 `confirmed`. Waiting is not modelled; the delays waited are returned.
 */
module UserPage {
  import opened Prelude

  /** A row of the user table, as the API returns it; the source's `type` field is `kind` here, `type` being a Dafny keyword. */
  datatype User = User(id: string, email: string, kind: string, isActive: bool, createdAt: string, updatedAt: string)

  /**
   A parsed body: `NotJson` when reading it throws, with the error's message;
   otherwise `Json` with the fields the page reads (`message`, and
   `data.isActive` when it is a boolean). A body that is not JSON carries the
   parser's message; a JSON `null` body is `NotJson` too, carrying the
   TypeError that reading `.data` (or `.message`) of null raises, since the
   page then fails in the same way.
   */
  datatype JsonBody =
    | NotJson(parseError: string)
    | Json(message: Option<string>, reportedActive: Option<bool>)

  datatype PatchResponse = PatchResponse(status: nat, statusText: string, body: JsonBody)

  /** One try of `fetch`: a response, or an error with its `name` and `message`. */
  datatype Attempt = Responded(response: PatchResponse) | Failed(name: string, message: string)

  /** `fetchWithRetry`'s result: a response with the delays waited before it, the last error, or `undefined`. */
  datatype RetryResult =
    | Delivered(response: PatchResponse, waits: seq<nat>)
    | Rethrown(message: string, waits: seq<nat>)
    | Exhausted

  /** What the page shows at the end of the handler. */
  datatype Alert = NoAlert | SuccessAlert(text: string) | ErrorAlert(text: string)

  /**
   The handler's effect: the user list afterwards, the action the
   confirmation dialog asked about (None: no dialog), how many PATCH
   attempts were made, and the final alert.
   */
  datatype BlockOutcome = BlockOutcome(users: seq<User>, asked: Option<string>, attempts: nat, alert: Alert)

  const DEFAULT_RETRIES := 3
  const BASE_DELAY_MS := 1000
  const MAX_DELAY_MS := 5000
  const ABORT_ERROR := "AbortError"
  const INVALID_USER_ID := "Invalid user ID"
  // one literal in the page, written as two so that its "Request timeout" prefix is visible to the prover
  const TIMEOUT_ERROR := "Request timeout" + " - Server tidak merespons dalam waktu yang ditentukan"
  const UNDEFINED_RESPONSE_ERROR := "Cannot read properties of undefined (reading 'ok')"
  const TIMEOUT_TEXT := "Request timeout - Server tidak merespons. Coba lagi nanti."
  const CONNECTION_TEXT := "Koneksi ke server gagal. Periksa koneksi internet Anda dan coba lagi."
  const CORS_TEXT := "Masalah CORS - Hubungi administrator sistem."

  // ---------------------------------------------------------------- backoff

  function Pow2(n: nat): (r: nat)
    ensures r >= 1
  {
    if n == 0 then 1 else 2 * Pow2(n - 1)
  }

  lemma {:induction false} Pow2Monotone(i: nat, j: nat)
    requires i <= j
    ensures Pow2(i) <= Pow2(j)
    decreases j
  {
    if i < j {
      Pow2Monotone(i, j - 1);
    }
  }

  /** `Math.min(1000 * Math.pow(2, i), 5000)`: the wait after failed attempt `i`. */
  function BackoffDelay(i: nat): (d: nat)
    ensures BASE_DELAY_MS <= d <= MAX_DELAY_MS
  {
    if BASE_DELAY_MS * Pow2(i) < MAX_DELAY_MS then BASE_DELAY_MS * Pow2(i) else MAX_DELAY_MS
  }

  /** The delay never shrinks from one attempt to the next. */
  lemma BackoffMonotone(i: nat, j: nat)
    requires i <= j
    ensures BackoffDelay(i) <= BackoffDelay(j)
  {
    Pow2Monotone(i, j);
  }

  /** The schedule is 1000, 2000, 4000 and then 5000 for ever. */
  lemma {:induction false} BackoffSchedule(i: nat)
    ensures BackoffDelay(0) == 1000 && BackoffDelay(1) == 2000 && BackoffDelay(2) == 4000
    ensures i >= 3 ==> BackoffDelay(i) == MAX_DELAY_MS
  {
    assert Pow2(3) == 8;
    if i >= 3 {
      Pow2Monotone(3, i);
    }
  }

  // ---------------------------------------------------------------- retry

  /** `fetchWithTimeout`: an abort becomes the timeout error; anything else passes through. */
  function WithTimeout(a: Attempt): (b: Attempt)
    ensures a.Responded? ==> b == a
    ensures a.Failed? && a.name == ABORT_ERROR ==> b.Failed? && b.message == TIMEOUT_ERROR
    ensures a.Failed? && a.name != ABORT_ERROR ==> b == a
  {
    if a.Failed? && a.name == ABORT_ERROR then Failed("Error", TIMEOUT_ERROR) else a
  }

  predicate FailsAt(attempts: seq<Attempt>, k: int)
    requires 0 <= k < |attempts|
  {
    WithTimeout(attempts[k]).Failed?
  }

  /** The delays follow the backoff schedule, counting from attempt `from`. */
  predicate Backoffs(waits: seq<nat>, from: nat)
  {
    forall k :: 0 <= k < |waits| ==> waits[k] == BackoffDelay(from + k)
  }

  /**
   What `fetchWithRetry` promises, as a relation, for the loop started at
   index `from`: a response comes from the first attempt that does not
   throw, within the budget; if all attempts in the budget throw, the last
   error is rethrown; with no budget at all the result is `undefined`.
   Every failed attempt but the last is followed by its backoff delay.
   */
  predicate RetrySpec(retries: int, attempts: seq<Attempt>, from: nat, r: RetryResult)
    requires retries <= |attempts|
  {
    match r
    case Exhausted => retries <= from
    case Delivered(response, waits) =>
      && from + |waits| < retries
      && WithTimeout(attempts[from + |waits|]) == Responded(response)
      && (forall k :: from <= k < from + |waits| ==> FailsAt(attempts, k))
      && Backoffs(waits, from)
    case Rethrown(message, waits) =>
      && from < retries
      && from + |waits| == retries - 1
      && (forall k :: from <= k < retries ==> FailsAt(attempts, k))
      && FailsAt(attempts, retries - 1)
      && WithTimeout(attempts[retries - 1]).message == message
      && Backoffs(waits, from)
  }

  /** Number of attempts a result stands for. */
  function AttemptsMade(r: RetryResult): nat
  {
    match r
    case Exhausted => 0
    case Delivered(_, waits) => |waits| + 1
    case Rethrown(_, waits) => |waits| + 1
  }

  /** `fetchWithRetry` from attempt `from` onwards, one attempt per call. */
  function RetryFrom(retries: int, attempts: seq<Attempt>, from: nat): RetryResult
    requires retries <= |attempts|
    decreases retries - from
  {
    if retries <= from then Exhausted
    else
      match WithTimeout(attempts[from])
      case Responded(response) => Delivered(response, [])
      case Failed(_, message) =>
        if from == retries - 1 then Rethrown(message, [])
        else
          match RetryFrom(retries, attempts, from + 1)
          case Exhausted => Exhausted
          case Delivered(response, waits) => Delivered(response, [BackoffDelay(from)] + waits)
          case Rethrown(m, waits) => Rethrown(m, [BackoffDelay(from)] + waits)
  }

  function Retry(retries: int, attempts: seq<Attempt>): RetryResult
    requires retries <= |attempts|
  {
    RetryFrom(retries, attempts, 0)
  }

  /** The recursive definition meets the relational one. */
  lemma {:induction false} RetryFromMeetsSpec(retries: int, attempts: seq<Attempt>, from: nat)
    requires retries <= |attempts|
    ensures RetrySpec(retries, attempts, from, RetryFrom(retries, attempts, from))
    decreases retries - from
  {
    if retries <= from {
    } else if WithTimeout(attempts[from]).Failed? && from < retries - 1 {
      RetryFromMeetsSpec(retries, attempts, from + 1);
      var rest := RetryFrom(retries, attempts, from + 1);
      assert !rest.Exhausted?;
      var r := RetryFrom(retries, attempts, from);
      assert r.waits == [BackoffDelay(from)] + rest.waits;
      assert forall k :: from + 1 <= k < from + 1 + |rest.waits| ==> FailsAt(attempts, k);
    }
  }

  /** The attempt a delivered response comes from did not throw. */
  lemma DeliveredAttemptSucceeds(retries: int, attempts: seq<Attempt>, from: nat, r: RetryResult)
    requires retries <= |attempts|
    requires r.Delivered? && RetrySpec(retries, attempts, from, r)
    ensures from + |r.waits| < |attempts| && !FailsAt(attempts, from + |r.waits|)
  {
  }

  /** The relation leaves no choice: at most one result meets it. */
  lemma RetrySpecDeterministic(retries: int, attempts: seq<Attempt>, from: nat, r1: RetryResult, r2: RetryResult)
    requires retries <= |attempts|
    requires RetrySpec(retries, attempts, from, r1)
    requires RetrySpec(retries, attempts, from, r2)
    ensures r1 == r2
  {
    if r1.Delivered? {
      DeliveredAttemptSucceeds(retries, attempts, from, r1);
    }
    if r2.Delivered? {
      DeliveredAttemptSucceeds(retries, attempts, from, r2);
    }
    if r1.Delivered? && r2.Delivered? {
      assert r1.waits == r2.waits;
    } else if r1.Rethrown? && r2.Rethrown? {
      assert r1.waits == r2.waits;
    }
  }

  /**
   `fetchWithRetry(url, options, retries)`: the loop as written, meeting the
   relational specification; hence at most `retries` attempts.
   */
  method FetchWithRetry(retries: int, attempts: seq<Attempt>) returns (r: RetryResult)
    requires retries <= |attempts|
    ensures RetrySpec(retries, attempts, 0, r)
    ensures AttemptsMade(r) <= if retries < 0 then 0 else retries
  {
    var waits: seq<nat> := [];
    var i := 0;
    while i < retries
      invariant 0 <= i && (i == 0 || i < retries)
      invariant |waits| == i
      invariant Backoffs(waits, 0)
      invariant forall k :: 0 <= k < i ==> FailsAt(attempts, k)
    {
      var outcome := WithTimeout(attempts[i]);
      if outcome.Responded? {
        return Delivered(outcome.response, waits);
      }
      if i == retries - 1 {
        return Rethrown(outcome.message, waits);
      }
      waits := waits + [BackoffDelay(i)];
      i := i + 1;
    }
    return Exhausted;
  }

  /** The loop and the recursive definition agree on every oracle. */
  lemma RetryAgreesWithLoop(retries: int, attempts: seq<Attempt>, r: RetryResult)
    requires retries <= |attempts|
    requires RetrySpec(retries, attempts, 0, r)
    ensures r == Retry(retries, attempts)
    ensures AttemptsMade(r) <= if retries < 0 then 0 else retries
  {
    RetryFromMeetsSpec(retries, attempts, 0);
    RetrySpecDeterministic(retries, attempts, 0, r, Retry(retries, attempts));
  }

  // ---------------------------------------------------------------- messages

  /**
   The message shown for a failed block/unblock, by priority: timeouts
   first, then connection failures, then CORS, otherwise the error's own
   message. ("Failed to fetch" is tested too, but "fetch" already covers it.)
   */
  function Classify(message: string): (text: string)
    ensures Contains(message, "timeout") || Contains(message, "AbortError") ==> text == TIMEOUT_TEXT
    ensures text == message || text == TIMEOUT_TEXT || text == CONNECTION_TEXT || text == CORS_TEXT
  {
    if Contains(message, "timeout") || Contains(message, "AbortError") then TIMEOUT_TEXT
    else if Contains(message, "fetch") || Contains(message, "NetworkError") || Contains(message, "Failed to fetch") then
      CONNECTION_TEXT
    else if Contains(message, "CORS") then CORS_TEXT
    else message
  }

  /** None of the keywords the classification looks for. */
  predicate Unremarkable(message: string)
  {
    && !Contains(message, "timeout") && !Contains(message, "AbortError")
    && !Contains(message, "fetch") && !Contains(message, "NetworkError")
    && !Contains(message, "CORS")
  }

  /** A message without any of the keywords' first letters (t, A, f, N, C) has none of the keywords. */
  lemma UnremarkableWithoutInitials(message: string)
    requires 't' !in message && 'A' !in message && 'f' !in message && 'N' !in message && 'C' !in message
    ensures Unremarkable(message)
  {
    MissingFirstChar(message, "timeout");
    MissingFirstChar(message, "AbortError");
    MissingFirstChar(message, "fetch");
    MissingFirstChar(message, "NetworkError");
    MissingFirstChar(message, "CORS");
  }

  /** The "Failed to fetch" test can never decide anything the "fetch" test has not. */
  lemma FailedToFetchIsRedundant(message: string)
    requires Contains(message, "Failed to fetch")
    ensures Contains(message, "fetch")
  {
    assert "Failed to fetch" == "Failed to " + "fetch" + "";
    ContainsInfix("Failed to ", "fetch", "");
    ContainsTransitive(message, "Failed to fetch", "fetch");
  }

  /** Each branch of the classification, in priority order, and nothing else. */
  lemma ClassifyByPriority(message: string)
    ensures !(Contains(message, "timeout") || Contains(message, "AbortError"))
      && (Contains(message, "fetch") || Contains(message, "NetworkError"))
      ==> Classify(message) == CONNECTION_TEXT
    ensures !(Contains(message, "timeout") || Contains(message, "AbortError"))
      && !(Contains(message, "fetch") || Contains(message, "NetworkError"))
      && Contains(message, "CORS")
      ==> Classify(message) == CORS_TEXT
    ensures Unremarkable(message) ==> Classify(message) == message
  {
    if Contains(message, "Failed to fetch") {
      FailedToFetchIsRedundant(message);
    }
  }

  /** The timeout error raised for an aborted attempt is shown as the timeout text. */
  lemma TimeoutErrorShownAsTimeout()
    ensures Classify(TIMEOUT_ERROR) == TIMEOUT_TEXT
  {
    assert OccursAt(TIMEOUT_ERROR, "timeout", 8) by {
      assert TIMEOUT_ERROR[..15] == "Request timeout";
      assert "Request timeout"[8..15] == "timeout";
    }
    ContainsFromOffset(TIMEOUT_ERROR, "timeout", 8);
  }

  // ---------------------------------------------------------------- handler

  /** The verb of the confirmation dialog. */
  function ActionLabel(isCurrentlyActive: bool): (a: string)
    ensures a == "block" <==> isCurrentlyActive
    ensures a == "unblock" <==> !isCurrentlyActive
  {
    if isCurrentlyActive then "block" else "unblock"
  }

  /** The status the list takes: what the server reported, or else the toggle of the current one. */
  function NewStatus(reported: Option<bool>, isCurrentlyActive: bool): (b: bool)
    ensures reported.Some? ==> b == reported.value
    ensures reported.None? ==> b != isCurrentlyActive
  {
    if reported.Some? then reported.value else !isCurrentlyActive
  }

  /** `users.map(u => u.id === userId ? {...u, isActive} : u)`. */
  function SetActive(users: seq<User>, userId: string, isActive: bool): (r: seq<User>)
    ensures |r| == |users|
    ensures forall i :: 0 <= i < |users| && users[i].id != userId ==> r[i] == users[i]
    ensures forall i :: 0 <= i < |users| && users[i].id == userId ==>
      r[i].isActive == isActive && r[i].(isActive := users[i].isActive) == users[i]
  {
    seq(|users|, i requires 0 <= i < |users| =>
      if users[i].id == userId then users[i].(isActive := isActive) else users[i])
  }

  predicate IsDigit(c: char)
  {
    '0' <= c <= '9'
  }

  /** The value of a decimal digit; 0 for any other character. */
  function DigitValue(c: char): nat
  {
    if IsDigit(c) then c as int - '0' as int else 0
  }

  /** Reference reading of a string of decimal digits, most significant first. */
  function DigitsValue(s: string): nat
  {
    if s == [] then 0 else 10 * DigitsValue(s[..|s| - 1]) + DigitValue(s[|s| - 1])
  }

  function DecimalDigit(d: nat): (c: char)
    requires d < 10
    ensures IsDigit(c) && DigitValue(c) == d
  {
    (d + '0' as int) as char
  }

  /** Decimal rendering of a status code, as a template literal shows it: it reads back as the code, without leading zeros. */
  function Decimal(n: nat): (s: string)
    ensures |s| >= 1
    ensures forall i :: 0 <= i < |s| ==> IsDigit(s[i])
    ensures DigitsValue(s) == n
    ensures |s| > 1 ==> s[0] != '0'
    decreases n
  {
    if n < 10 then [DecimalDigit(n)]
    else
      var prefix := Decimal(n / 10);
      var s := prefix + [DecimalDigit(n % 10)];
      assert s[..|s| - 1] == prefix;
      s
  }

  /**
   The error for a non-2xx answer: the body's `message` when truthy, else
   "HTTP <status>: <statusText>", from which the status reads back.
   */
  function HttpErrorMessage(response: PatchResponse): (m: string)
    ensures response.body.Json? && Truthy(response.body.message) ==> m == response.body.message.value
    ensures !(response.body.Json? && Truthy(response.body.message)) ==>
      && StartsWith(m, "HTTP ")
      && |m| >= 8 + |response.statusText|
      && m[|m| - |response.statusText| - 2..] == ": " + response.statusText
      && (var digits := m[5..|m| - |response.statusText| - 2];
          && (forall i :: 0 <= i < |digits| ==> IsDigit(digits[i]))
          && DigitsValue(digits) == response.status
          && (|digits| > 1 ==> digits[0] != '0'))
  {
    var code := Decimal(response.status);
    var fallback := "HTTP " + code + ": " + response.statusText;
    var head := "HTTP " + code;
    assert fallback[..|head|] == head;
    assert fallback[5..|head|] == head[5..] == code;
    assert fallback[|fallback| - |response.statusText| - 2..] == ": " + response.statusText;
    if response.body.Json? && Truthy(response.body.message) then response.body.message.value else fallback
  }

  /** The success text: the body's `message` when truthy, else "User berhasil di<action>.". */
  function SuccessText(message: Option<string>, action: string): string
  {
    if Truthy(message) then message.value else "User berhasil di" + action + "."
  }

  /**
   `handleBlockUser(userId, isCurrentlyActive)`: reject an empty id before
   any dialog; ask for confirmation; on confirmation PATCH with up to three
   attempts; on a 2xx JSON answer update the matching rows and report
   success; on anything else leave the list alone and show the classified
   error.
   */
  function HandleBlockUser(users: seq<User>, userId: string, isCurrentlyActive: bool, confirmed: bool,
                           attempts: seq<Attempt>): (o: BlockOutcome)
    requires DEFAULT_RETRIES <= |attempts|
    ensures userId == "" ==> o == BlockOutcome(users, None, 0, ErrorAlert(Classify(INVALID_USER_ID)))
    ensures userId != "" ==> o.asked == Some(ActionLabel(isCurrentlyActive))
    ensures userId != "" && !confirmed ==> o == BlockOutcome(users, o.asked, 0, NoAlert)
    ensures o.attempts <= DEFAULT_RETRIES
    ensures !o.alert.SuccessAlert? ==> o.users == users
    // after confirmation, everything follows from the result of the retried PATCH
    ensures userId != "" && confirmed ==>
      var r := Retry(DEFAULT_RETRIES, attempts);
      && o.attempts == AttemptsMade(r) >= 1
      && (o.alert.SuccessAlert? <==> r.Delivered? && IsOk(r.response.status) && r.response.body.Json?)
      && (r.Rethrown? ==> o.alert == ErrorAlert(Classify(r.message)))
      && (r.Delivered? && !IsOk(r.response.status) ==> o.alert == ErrorAlert(Classify(HttpErrorMessage(r.response))))
      && (r.Delivered? && IsOk(r.response.status) && r.response.body.NotJson? ==>
            o.alert == ErrorAlert(Classify(r.response.body.parseError)))
      && (o.alert.SuccessAlert? ==>
            && o.users == SetActive(users, userId, NewStatus(r.response.body.reportedActive, isCurrentlyActive))
            && o.alert.text == SuccessText(r.response.body.message, ActionLabel(isCurrentlyActive)))
    ensures o.alert.SuccessAlert? ==>
      && confirmed && userId != ""
      && |o.users| == |users|
      && (forall i :: 0 <= i < |users| && users[i].id != userId ==> o.users[i] == users[i])
      && (forall i :: 0 <= i < |users| && users[i].id == userId ==>
            o.users[i] == users[i].(isActive := o.users[i].isActive))
  {
    if userId == "" then
      BlockOutcome(users, None, 0, ErrorAlert(Classify(INVALID_USER_ID)))
    else
      var action := ActionLabel(isCurrentlyActive);
      if !confirmed then
        BlockOutcome(users, Some(action), 0, NoAlert)
      else
        var r := Retry(DEFAULT_RETRIES, attempts);
        RetryFromMeetsSpec(DEFAULT_RETRIES, attempts, 0);
        var made := AttemptsMade(r);
        match r
        case Exhausted => BlockOutcome(users, Some(action), made, ErrorAlert(Classify(UNDEFINED_RESPONSE_ERROR)))
        case Rethrown(message, _) => BlockOutcome(users, Some(action), made, ErrorAlert(Classify(message)))
        case Delivered(response, _) =>
          if !IsOk(response.status) then
            BlockOutcome(users, Some(action), made, ErrorAlert(Classify(HttpErrorMessage(response))))
          else
            match response.body
            case NotJson(parseError) => BlockOutcome(users, Some(action), made, ErrorAlert(Classify(parseError)))
            case Json(message, reported) =>
              BlockOutcome(SetActive(users, userId, NewStatus(reported, isCurrentlyActive)), Some(action), made,
                           SuccessAlert(SuccessText(message, action)))
  }

  /** The invalid-id error carries none of the keywords, so it is shown as it is. */
  lemma InvalidIdShownVerbatim()
    ensures Classify(INVALID_USER_ID) == INVALID_USER_ID
  {
    UnremarkableWithoutInitials(INVALID_USER_ID);
    ClassifyByPriority(INVALID_USER_ID);
  }

  /** An empty id is reported as invalid before any dialog or request. */
  lemma EmptyIdRejected(users: seq<User>, isCurrentlyActive: bool, confirmed: bool, attempts: seq<Attempt>)
    requires DEFAULT_RETRIES <= |attempts|
    ensures HandleBlockUser(users, "", isCurrentlyActive, confirmed, attempts)
         == BlockOutcome(users, None, 0, ErrorAlert(INVALID_USER_ID))
  {
    InvalidIdShownVerbatim();
  }

  /**
   A 2xx JSON answer on the first attempt sets the matching rows to the
   server-reported status, or to the toggled one when the server reports none.
   */
  lemma SuccessfulPatchSetsStatus(users: seq<User>, userId: string, isCurrentlyActive: bool,
                                  attempts: seq<Attempt>)
    requires DEFAULT_RETRIES <= |attempts|
    requires userId != ""
    requires attempts[0].Responded? && IsOk(attempts[0].response.status) && attempts[0].response.body.Json?
    ensures var o := HandleBlockUser(users, userId, isCurrentlyActive, true, attempts);
      var b := attempts[0].response.body;
      && o.attempts == 1
      && o.users == SetActive(users, userId, NewStatus(b.reportedActive, isCurrentlyActive))
      && o.alert == SuccessAlert(SuccessText(b.message, ActionLabel(isCurrentlyActive)))
  {
  }

  /**
   Whatever the attempt, the first one that does not throw decides: a 2xx
   JSON answer sets the matching rows and reports success; a non-2xx answer
   shows its classified HTTP error; a 2xx answer that is not JSON shows the
   parser's error. In the two error cases the list is untouched.
   */
  lemma FirstResponseDecides(users: seq<User>, userId: string, isCurrentlyActive: bool,
                             attempts: seq<Attempt>, k: nat)
    requires DEFAULT_RETRIES <= |attempts|
    requires userId != ""
    requires k < DEFAULT_RETRIES
    requires forall j :: 0 <= j < k ==> FailsAt(attempts, j)
    requires attempts[k].Responded?
    ensures var o := HandleBlockUser(users, userId, isCurrentlyActive, true, attempts);
      var p := attempts[k].response;
      && o.attempts == k + 1
      && (IsOk(p.status) && p.body.Json? ==>
            && o.users == SetActive(users, userId, NewStatus(p.body.reportedActive, isCurrentlyActive))
            && o.alert == SuccessAlert(SuccessText(p.body.message, ActionLabel(isCurrentlyActive))))
      && (!IsOk(p.status) ==> o.users == users && o.alert == ErrorAlert(Classify(HttpErrorMessage(p))))
      && (IsOk(p.status) && p.body.NotJson? ==> o.users == users && o.alert == ErrorAlert(Classify(p.body.parseError)))
  {
    var waits: seq<nat> := seq(k, j requires 0 <= j < k => BackoffDelay(j));
    var expected := Delivered(attempts[k].response, waits);
    assert RetrySpec(DEFAULT_RETRIES, attempts, 0, expected);
    RetryFromMeetsSpec(DEFAULT_RETRIES, attempts, 0);
    RetrySpecDeterministic(DEFAULT_RETRIES, attempts, 0, expected, Retry(DEFAULT_RETRIES, attempts));
  }

  /** When all three attempts throw, the list is untouched and the last error is shown, classified. */
  lemma AllFailedShowsLastError(users: seq<User>, userId: string, isCurrentlyActive: bool, attempts: seq<Attempt>)
    requires DEFAULT_RETRIES <= |attempts|
    requires userId != ""
    requires forall j :: 0 <= j < DEFAULT_RETRIES ==> FailsAt(attempts, j)
    ensures var o := HandleBlockUser(users, userId, isCurrentlyActive, true, attempts);
      && o.users == users
      && o.attempts == DEFAULT_RETRIES
      && FailsAt(attempts, DEFAULT_RETRIES - 1)
      && o.alert == ErrorAlert(Classify(WithTimeout(attempts[DEFAULT_RETRIES - 1]).message))
  {
    assert FailsAt(attempts, DEFAULT_RETRIES - 1);
    var waits: seq<nat> := [BackoffDelay(0), BackoffDelay(1)];
    var expected := Rethrown(WithTimeout(attempts[DEFAULT_RETRIES - 1]).message, waits);
    assert RetrySpec(DEFAULT_RETRIES, attempts, 0, expected);
    RetryFromMeetsSpec(DEFAULT_RETRIES, attempts, 0);
    RetrySpecDeterministic(DEFAULT_RETRIES, attempts, 0, expected, Retry(DEFAULT_RETRIES, attempts));
  }

  /** Three aborted attempts: all three are made, the list is untouched and the timeout text is shown. */
  lemma AllAbortedShowsTimeout(users: seq<User>, userId: string, isCurrentlyActive: bool, attempts: seq<Attempt>)
    requires DEFAULT_RETRIES <= |attempts|
    requires userId != ""
    requires forall k :: 0 <= k < DEFAULT_RETRIES ==> attempts[k].Failed? && attempts[k].name == ABORT_ERROR
    ensures var o := HandleBlockUser(users, userId, isCurrentlyActive, true, attempts);
      o.users == users && o.attempts == DEFAULT_RETRIES && o.alert == ErrorAlert(TIMEOUT_TEXT)
  {
    TimeoutErrorShownAsTimeout();
    assert WithTimeout(attempts[0]).Failed? && WithTimeout(attempts[1]).Failed? && WithTimeout(attempts[2]).Failed?;
    AllFailedShowsLastError(users, userId, isCurrentlyActive, attempts);
  }

  /** Setting the status twice is the same as setting it once; an id nobody has changes nothing. */
  lemma SetActiveProperties(users: seq<User>, userId: string, isActive: bool)
    ensures SetActive(SetActive(users, userId, isActive), userId, isActive) == SetActive(users, userId, isActive)
    ensures (forall i :: 0 <= i < |users| ==> users[i].id != userId) ==> SetActive(users, userId, isActive) == users
  {
  }
}
